=== FILE: README.md ===
# TheQuizLab core in Dafny

TheQuizLab turns an uploaded document into a quiz. Its logic sits in two
Python files. `quiz_engine.py` cuts the document text into 200-word chunks,
ranks the chunks by L2 distance to an embedded query and keeps the nearest
three, sends them to a language model, and fills in a default answer on each
question of the parsed reply. `main.py` refuses texts under 50 words, tries
generation up to three times, and writes the quiz as a sequence of styled
document paragraphs.

This project models those rules as pure Dafny functions and proves what they
promise:

- `wrappers.dfy` (`Wrappers`): `Option` and `Result`.
- `decimal.dfy` (`Decimal`): the decimal rendering of a natural number, as an
  f-string writes `{num_questions}` or `{i+1}`, with its read-back.
- `words.dfy` (`Words`): `str.split()` and `" ".join`. The whitespace class is
  a parameter `isSpace`.
- `chunker.dfy` (`Chunker`): `chunk_text`.
- `retriever.dfy` (`Retriever`): `retrieve_relevant_chunks`. The sentence
  embedding is a parameter `embed` with a fixed output length. The exact flat
  L2 index is a brute-force ranking by squared Euclidean distance over `real`.
- `questions.dfy` (`Questions`): `generate_questions_from_text`. This covers
  the API-key check, the retrieval of the context, the outcome of the service
  call, and the handling of the parsed reply. The service is a parameter
  `service` applied to the request: the context block, the question count,
  the difficulty and the question type.
- `quiz.dfy` (`Quiz`): the 50-word gate, `generate_quiz`, and the paragraphs
  of `get_docx_download_button`, together with a reader that parses them back.

Python exceptions that escape a call are modelled as `Outcome.Raised`. A
return value is `Outcome.Returned`.

The index search does not clamp `top_k` to the number of chunks. For every
slot beyond the number of chunks, an exact flat index returns the label -1.
`chunks[-1]` then reads the last chunk. The model keeps this behaviour:
`Retrieve` always returns `top_k` strings, and the padded slots hold the last
chunk.

Among chunks at equal distance, the model ranks the lower index first. This
order is an added assumption: the library leaves it unspecified. The contract
of `Retrieve` does not depend on it. `Retriever.TopKDistancesAgree` shows that
any two exact top-k results have the same distance at every rank.

## Model

| member | source | states |
|---|---|---|
| Words.Split | quiz_engine.py:24 | every element of `text.split()` is non-empty and holds no whitespace character |
| Words.SplitAtSpace | quiz_engine.py:24 | whitespace separates words: at any whitespace character the text splits into the words before it followed by the words after it, so no word spans whitespace and runs of whitespace give no empty word |
| Words.SplitWordThen | quiz_engine.py:24 | a word followed by whitespace or by the end of the text comes out whole as the first word |
| Words.SplitBlankThen | quiz_engine.py:24 | whitespace at the start of a text adds no word and changes none of the words after it |
| Words.SplitIsUnique | quiz_engine.py:24 | any function that gives no word for the empty text, ignores leading whitespace and splits off a leading word whole is `text.split()`: so every word, wherever it stands, is a maximal run of non-whitespace characters |
| Words.SplitKeepsEveryOtherChar | quiz_engine.py:24 | the words, concatenated, are exactly the non-whitespace characters of the text in order: splitting drops only whitespace |
| Words.SplitJoin | quiz_engine.py:24-25 | joining words with a single space and splitting again gives back the same words |
| Words.NoWordsIffBlank | quiz_engine.py:24 | a text has no words exactly when it is empty or all whitespace |
| Decimal.Show | main.py:45 | the decimal rendering of a number is non-empty, all digits, without a leading zero |
| Decimal.ReadShow | main.py:45 | reading the decimal rendering back gives the number |
| Decimal.ShowInjective | main.py:45 | distinct numbers render differently, so distinct questions get distinct "Q{i+1}" prefixes |
| Chunker.ChunkWords | quiz_engine.py:25 | slicing words by `chunk_size` gives no chunk exactly when there is no word; the last chunk starts before the end of the words, and the slices reach the end |
| Chunker.ChunkSlice | quiz_engine.py:25 | chunk k is the slice `words[k*size : (k+1)*size]`, cut at the end of the words |
| Chunker.ChunkCount | quiz_engine.py:25 | the number of chunks is ceil(N / chunk_size) |
| Chunker.FlattenChunkWords | quiz_engine.py:25 | concatenating the chunks in order gives back the word list: nothing dropped, duplicated or reordered |
| Chunker.ChunkSizes | quiz_engine.py:25 | every chunk but the last has exactly `chunk_size` words; the last has between 1 and `chunk_size` |
| Chunker.ChunkText | quiz_engine.py:22-25 | one chunk string per word slice; no chunk exactly when the text has no words |
| Chunker.ChunkTextWords | quiz_engine.py:24-25 | chunk string k splits into exactly the words of slice k, and each chunk string is its words joined by single spaces |
| Chunker.ChunkTextKeepsWords | quiz_engine.py:24-25 | splitting every chunk string again and concatenating gives exactly `text.split()` |
| Chunker.ChunkTextBounds | quiz_engine.py:25 | each chunk string splits into between 1 and `chunk_size` words; all but the last into exactly `chunk_size` |
| Retriever.SqDist | quiz_engine.py:33-36 | the squared L2 distance between two vectors of one length is never negative |
| Retriever.SqDistSelf | quiz_engine.py:33-36 | a vector is at distance zero from itself |
| Retriever.SelectNearest | quiz_engine.py:36 | the brute-force ranking returns min(k, number of candidates) row numbers, each a valid row |
| Retriever.SelectionIsNearest | quiz_engine.py:36 | the ranked rows are candidates, distinct when the candidates are, in non-decreasing distance, with no unselected candidate nearer than a selected one |
| Retriever.SelectionIsTopK | quiz_engine.py:36 | for k up to the number of rows the ranking is an exact k-nearest search result |
| Retriever.TopKDistancesAgree | quiz_engine.py:36 | any two exact k-nearest results have the same distance at every rank, so the tie order cannot change which distances are returned |
| Retriever.SearchLabels | quiz_engine.py:36 | the search returns `top_k` labels; a slot holds a valid row exactly when its rank is below the number of rows, and every later slot holds -1 |
| Retriever.SelectionWithinCandidates | quiz_engine.py:37 | the chunks at the ranked rows occur no more often than in the chunk list |
| Retriever.SelectionTakesAll | quiz_engine.py:37 | when k reaches the number of candidates, the ranked chunks are the candidates' chunks, as a multiset |
| Retriever.Retrieve | quiz_engine.py:27-37 | fails exactly when the text has no chunk; otherwise returns `top_k` chunk strings: the nearest chunks first, each at most as often as it occurs, in non-decreasing distance, with no unreturned chunk nearer; all chunks when `top_k` reaches their number; the last chunk in every padded slot |
| Questions.WithAnswer | quiz_engine.py:114-115 | after defaulting, the question has an answer: its own when present, "No answer provided" otherwise; every other key is unchanged |
| Questions.WithAnswerIdempotent | quiz_engine.py:115 | a question with an answer is left as it is, so defaulting twice equals defaulting once |
| Questions.Normalize | quiz_engine.py:111-119 | a non-list or empty list gives None; a non-empty list raises exactly when one of its elements is not an object; otherwise every question comes back, in order, with an answer |
| Questions.Query | quiz_engine.py:45 | the retrieval query asks for exactly `num_questions` questions: the number written after "Generate " reads back as that count |
| Questions.GenerateQuestions | quiz_engine.py:39-123 | without an API key the call returns None; it raises for want of an index exactly when there is a key and the text has no words; otherwise, for the request built from the retrieved context and the parameters, a failed request or an unparseable reply gives None, a reply without content raises, and parsed content gives exactly its normalization; any list returned is non-empty and every question in it has an answer |
| Quiz.TooShort | main.py:84 | a text is refused exactly when it has fewer than 50 whitespace-separated words |
| Quiz.GateExcludesEmptyIndex | main.py:84-86 | a text that passes the gate always yields chunks, so retrieval succeeds and generation never raises for want of an index |
| Quiz.GenerateQuiz | main.py:31-38 | one to three calls; every call before the last returned a falsy value; a truthy result or an exception ends the loop and is passed on unchanged; the result is None exactly when all three calls were falsy |
| Quiz.OptionLabels | main.py:47-48 | option t is a bullet paragraph reading its consecutive letter, ". ", then the t-th option, in the original order |
| Quiz.QuestionParagraphs | main.py:44-50 | writing a question fails exactly when it is multiple choice with options that are not iterable or too many to label, with `NotIterable` exactly in the first case; otherwise it gives one paragraph per listed option and three more |
| Quiz.QuestionLayout | main.py:45-50 | question i is a numbered paragraph "Q{i+1}: " with its question or "No question provided", then one bullet per listed option, then a quote "Answer: " with its answer or "No answer provided", then a blank paragraph |
| Quiz.QuizParagraphs | main.py:44-50 | writing the questions fails exactly when one of them cannot be written, and otherwise gives at least three paragraphs per question |
| Quiz.QuizDocument | main.py:40-50 | the document cannot be written exactly when some multiple-choice question's options cannot be iterated or labelled; otherwise it holds the heading and at least three paragraphs per question |
| Quiz.ReadQuizParagraphs | main.py:44-50 | the paragraphs of the questions numbered from any starting point read back, with that numbering checked, as each question's text, options and answer in order |
| Quiz.DocumentReadsBack | main.py:40-50 | reading the written paragraphs back, with the numbering Q1, Q2, ... checked, gives every question's text, options and answer, question by question |

## Left out

- The Streamlit page: set-up, sidebar, uploaders, spinner, progress bar, warnings and the on-screen quiz (main.py lines 9-29 and 67-111 apart from line 84). This is user interface with no logic of its own.
- The `st.error` messages that `generate_questions_from_text` shows before it returns None or re-raises (quiz_engine.py lines 41, 118 and 122). They are display only; the outcome they accompany is modelled.
- Writing the `.docx` file, the temporary file, the base64 encoding and the HTML download button (main.py lines 41 and 52-65). These are I/O. The model stops at the paragraph sequence, with styles as a datatype.
- doc_processor.py is not part of this model. Its docx reading and format conversion are I/O and foreign tools; the document text is an input string.
- The sentence embedding model (quiz_engine.py lines 15, 30-31) is a parameter. It is a foreign neural network with float output.
- Float arithmetic and the index library's tie order are replaced by exact reals and the lower-index-first order described above.
- Retriever.Retrieve: for `top_k = 0` the model returns an empty list, where the index library does not accept a search for zero neighbours. The only call passes 3.
- The HTTP request, the prompt and system-prompt texts, and JSON decoding (quiz_engine.py lines 49-110 and 112) are left out. The service is a parameter. It receives the context block and the parameters the prompts are built from, including the question type that picks the system prompt and the difficulty that the prompt lower-cases. It returns a request failure, a reply without content, or the parsed content (or none when parsing fails).
- `fix_common_json_issues` (quiz_engine.py lines 17-20) is left out. It is a regular-expression repair of the reply text before parsing, and it is part of the service parameter here.
- The whitespace class of `str.split()` is a parameter, not the Unicode whitespace table.
- Chunker.ChunkWords: requires `chunk_size > 0`, and the size is a `nat`. Python's `range` raises for a step of 0, and with a negative step `range(0, n, size)` is empty, so `chunk_text` would return no chunk. The only caller uses 200.
- Retriever.SqDist: does not state that the distance is zero only for equal vectors. That direction needs non-linear real arithmetic.
- Quiz.QuestionParagraphs: an option list of 55200 or more entries is reported as `TooManyOptions`; 55199 options are still written, the last labelled U+D7FF. The 55200th label would be U+D800, a lone surrogate, which the document library cannot encode and refuses with an error; so the model stops at the same option as the program, under its own error name.
- Quiz.QuestionParagraphs: does not report the document library's refusal of text that is not XML-compatible (NUL and control characters other than tab, newline and carriage return). `json.loads` produces such characters from escapes like `\u0001`, and the program then raises when it adds the paragraph holding them; the model writes that question, option or answer text as it is.
- Quiz.QuizDocument: for the same reason, its "cannot be written exactly when" covers only options that cannot be iterated or labelled; a question, option or answer text with a NUL or control character also makes the program raise, and the model does not say so.
- Quiz.QuestionParagraphs: an "options" value that is a JSON object is treated as not iterable. Python would iterate its keys, but a Dafny `map` has no key order.
- Questions.Json: numbers are one constructor over `real`, so an integer `1` and a float `1.0` from `json.loads` are the same value. `NaN` and `Infinity`, which `json.loads` accepts, have no value at all. A nested object is a `map` without its key order.
- Quiz.Render: a non-string value is shown through a parameter `show`. Because of the three gaps in `Questions.Json`, `show` cannot tell `1` from `1.0`, and cannot reproduce how `str()` writes `NaN`, `Infinity` or a nested object's keys in their order.

=== FILE: chunker.dfy ===
/** `chunk_text`: the word chunker of the retrieval pipeline. */
module Chunker {
  import opened Words

  /** The chunk size `chunk_text` uses when its caller gives none. */
  const DefaultChunkSize: nat := 200

  function Min(a: int, b: int): int {
    if a <= b then a else b
  }

  /** k * size, as the start offset of slice k; kept recursive so that the
      chunking proofs stay in linear arithmetic. */
  function SliceStart(k: nat, size: nat): nat
  {
    if k == 0 then 0 else SliceStart(k - 1, size) + size
  }

  lemma {:induction false} SliceStartIsProduct(k: nat, size: nat)
    ensures SliceStart(k, size) == k * size
  {
    if k > 0 {
      SliceStartIsProduct(k - 1, size);
      MulSucc(k - 1, size);
    }
  }

  /** ceil(n / d) for a positive divisor. */
  function CeilDiv(n: nat, d: nat): nat
    requires d > 0
  {
    (n + d - 1) / d
  }

  lemma MulSucc(a: nat, d: nat)
    ensures (a + 1) * d == a * d + d
  {
  }

  lemma MulMono(x: nat, y: nat, d: nat)
    requires x <= y
    ensures x * d <= y * d
  {
    assert y * d == x * d + (y - x) * d;
  }

  /** Euclidean division has one quotient. */
  lemma DivUnique(a: nat, d: nat, q: nat, r: nat)
    requires d > 0 && a == q * d + r && r < d
    ensures a / d == q
  {
    var q', r' := a / d, a % d;
    assert a == q' * d + r';
    if q' > q {
      MulMono(q + 1, q', d);
      MulSucc(q, d);
      assert false;
    } else if q' < q {
      MulMono(q' + 1, q, d);
      MulSucc(q', d);
      assert false;
    }
  }

  /** m is ceil(n / d) when m - 1 slices of d fall short of n and m slices cover it. */
  lemma CeilDivUnique(n: nat, d: nat, m: nat)
    requires d > 0 && m > 0
    requires (m - 1) * d < n <= m * d
    ensures CeilDiv(n, d) == m
  {
    MulSucc(m - 1, d);
    DivUnique(n + d - 1, d, m, n + d - 1 - m * d);
  }

  lemma {:induction false} SliceStartMono(j: nat, k: nat, size: nat)
    requires j <= k
    ensures SliceStart(j, size) <= SliceStart(k, size)
  {
    if j < k {
      SliceStartMono(j, k - 1, size);
    }
  }

  /** The word lists of the `range(0, len(words), size)` slices: consecutive
      slices of `size` words, the last one holding the remainder.
      There is no slice for an empty list, and there are just enough slices
      to cover the list: the last one starts inside it. */
  function ChunkWords<T>(ws: seq<T>, size: nat): (cs: seq<seq<T>>)
    requires size > 0
    ensures |cs| == 0 <==> |ws| == 0
    ensures |cs| > 0 ==> SliceStart(|cs| - 1, size) < |ws| <= SliceStart(|cs|, size)
    decreases |ws|
  {
    if |ws| == 0 then []
    else if |ws| <= size then [ws]
    else [ws[..size]] + ChunkWords(ws[size..], size)
  }

  lemma SliceOfSlice<T>(ws: seq<T>, size: nat, a: nat, b: nat)
    requires a <= b && size + b <= |ws|
    ensures ws[size..][a..b] == ws[size + a .. size + b]
  {
  }

  /** Chunk k is `words[k * size : k * size + size]`: it starts inside the
      list and is cut off at its end. */
  lemma {:induction false} ChunkSlice<T>(ws: seq<T>, size: nat, k: nat)
    requires size > 0 && k < |ChunkWords(ws, size)|
    ensures SliceStart(k, size) < |ws|
    ensures ChunkWords(ws, size)[k] == ws[SliceStart(k, size) .. Min(SliceStart(k, size) + size, |ws|)]
    decreases |ws|
  {
    var cs := ChunkWords(ws, size);
    if |ws| <= size {
      assert cs == [ws];
      assert ws[0 .. |ws|] == ws;
    } else if k == 0 {
      assert cs[0] == ws[..size];
    } else {
      var rest := ChunkWords(ws[size..], size);
      assert cs[k] == rest[k - 1];
      ChunkSlice(ws[size..], size, k - 1);
      var a := SliceStart(k - 1, size);
      var b := Min(a + size, |ws| - size);
      SliceOfSlice(ws, size, a, b);
      assert SliceStart(k, size) == size + a;
      assert Min(size + a + size, |ws|) == size + b;
    }
  }

  /** The number of chunks is ceil(N / size) for N words. */
  lemma ChunkCount<T>(ws: seq<T>, size: nat)
    requires size > 0
    ensures |ChunkWords(ws, size)| == CeilDiv(|ws|, size)
  {
    var m := |ChunkWords(ws, size)|;
    if m > 0 {
      SliceStartIsProduct(m - 1, size);
      SliceStartIsProduct(m, size);
      CeilDivUnique(|ws|, size, m);
    } else {
      assert (size - 1) / size == 0;
    }
  }

  /** Concatenating the chunks, in order, gives back the word list:
      nothing is dropped, duplicated or reordered. */
  lemma {:induction false} FlattenChunkWords<T>(ws: seq<T>, size: nat)
    requires size > 0
    ensures Flatten(ChunkWords(ws, size)) == ws
    decreases |ws|
  {
    var cs := ChunkWords(ws, size);
    if |ws| == 0 {
    } else if |ws| <= size {
      assert cs == [ws];
      assert Flatten(cs) == ws + Flatten(cs[1..]);
      assert ws + [] == ws;
    } else {
      FlattenChunkWords(ws[size..], size);
      assert cs[1..] == ChunkWords(ws[size..], size);
      assert cs[0] == ws[..size];
      assert ws[..size] + ws[size..] == ws;
    }
  }

  /** Every chunk but the last holds exactly `size` words; the last holds
      between one and `size`. */
  lemma ChunkSizes<T>(ws: seq<T>, size: nat)
    requires size > 0
    ensures forall k :: 0 <= k < |ChunkWords(ws, size)| - 1 ==> |ChunkWords(ws, size)[k]| == size
    ensures |ChunkWords(ws, size)| > 0 ==>
              var last := ChunkWords(ws, size)[|ChunkWords(ws, size)| - 1];
              1 <= |last| <= size
  {
    var cs := ChunkWords(ws, size);
    forall k | 0 <= k < |cs| - 1
      ensures |cs[k]| == size
    {
      ChunkSlice(ws, size, k);
      SliceStartMono(k + 1, |cs| - 1, size);
    }
    if |cs| > 0 {
      ChunkSlice(ws, size, |cs| - 1);
    }
  }

  /** `chunk_text(text, size)`: the words of `text.split()`, grouped into
      chunks of `size` words and each chunk joined with single spaces. */
  function ChunkText(text: string, size: nat, isSpace: char -> bool): (chunks: seq<string>)
    requires size > 0
    ensures |chunks| == |ChunkWords(Split(text, isSpace), size)|
    ensures chunks == [] <==> Split(text, isSpace) == []
  {
    var cs := ChunkWords(Split(text, isSpace), size);
    seq(|cs|, k requires 0 <= k < |cs| => Join(cs[k]))
  }

  /** The words of each chunk string are exactly the words of that chunk,
      and each chunk string is its words joined by single spaces. */
  lemma ChunkTextWords(text: string, size: nat, isSpace: char -> bool)
    requires size > 0
    requires isSpace(' ')
    ensures var cs := ChunkWords(Split(text, isSpace), size);
            var chunks := ChunkText(text, size, isSpace);
            |chunks| == |cs| &&
            (forall k :: 0 <= k < |chunks| ==> Split(chunks[k], isSpace) == cs[k]) &&
            forall k :: 0 <= k < |chunks| ==> Join(Split(chunks[k], isSpace)) == chunks[k]
  {
    var ws := Split(text, isSpace);
    var cs := ChunkWords(ws, size);
    forall k | 0 <= k < |cs|
      ensures Split(Join(cs[k]), isSpace) == cs[k]
    {
      ChunkSlice(ws, size, k);
      assert forall i :: 0 <= i < |cs[k]| ==> cs[k][i] == ws[SliceStart(k, size) + i];
      SplitJoin(cs[k], isSpace);
    }
  }

  /** Re-splitting every chunk and concatenating the word lists, in order,
      gives exactly `text.split()`. */
  lemma ChunkTextKeepsWords(text: string, size: nat, isSpace: char -> bool)
    requires size > 0
    requires isSpace(' ')
    ensures var chunks := ChunkText(text, size, isSpace);
            Flatten(seq(|chunks|, k requires 0 <= k < |chunks| => Split(chunks[k], isSpace)))
              == Split(text, isSpace)
  {
    var chunks := ChunkText(text, size, isSpace);
    var cs := ChunkWords(Split(text, isSpace), size);
    ChunkTextWords(text, size, isSpace);
    assert seq(|chunks|, k requires 0 <= k < |chunks| => Split(chunks[k], isSpace)) == cs;
    FlattenChunkWords(Split(text, isSpace), size);
  }

  /** Each chunk string holds between one and `size` words, and every one
      but the last holds exactly `size`. */
  lemma ChunkTextBounds(text: string, size: nat, isSpace: char -> bool)
    requires size > 0
    requires isSpace(' ')
    ensures var chunks := ChunkText(text, size, isSpace);
            forall k :: 0 <= k < |chunks| ==>
              && 1 <= |Split(chunks[k], isSpace)| <= size
              && (k < |chunks| - 1 ==> |Split(chunks[k], isSpace)| == size)
  {
    var cs := ChunkWords(Split(text, isSpace), size);
    ChunkTextWords(text, size, isSpace);
    ChunkSizes(Split(text, isSpace), size);
  }
}

=== FILE: decimal.dfy ===
/** Decimal rendering of natural numbers, as Python's f-string `{n}` writes an int. */
module Decimal {

  predicate IsDigit(c: char) {
    '0' <= c <= '9'
  }

  function DigitChar(d: nat): (c: char)
    requires d < 10
    ensures IsDigit(c)
  {
    ['0', '1', '2', '3', '4', '5', '6', '7', '8', '9'][d]
  }

  function DigitValue(c: char): (d: nat)
    requires IsDigit(c)
    ensures d < 10
  {
    (c as int - '0' as int) as nat
  }

  /** Base-10 digits of n, most significant first, with no leading zero. */
  function Show(n: nat): (s: string)
    ensures |s| > 0
    ensures forall i :: 0 <= i < |s| ==> IsDigit(s[i])
    ensures |s| > 1 ==> s[0] != '0'
  {
    if n < 10 then [DigitChar(n)] else Show(n / 10) + [DigitChar(n % 10)]
  }

  /** Reads a string of digits back into the number it denotes. */
  function Read(s: string): nat
    requires forall i :: 0 <= i < |s| ==> IsDigit(s[i])
  {
    if |s| == 0 then 0 else 10 * Read(s[..|s| - 1]) + DigitValue(s[|s| - 1])
  }

  lemma DigitRoundTrip(d: nat)
    requires d < 10
    ensures DigitValue(DigitChar(d)) == d
  {
  }

  /** Reading back a rendered number gives the number. */
  lemma {:induction false} ReadShow(n: nat)
    ensures Read(Show(n)) == n
  {
    var s := Show(n);
    DigitRoundTrip(n % 10);
    if n >= 10 {
      ReadShow(n / 10);
      assert s[..|s| - 1] == Show(n / 10);
    }
  }

  /** Different numbers render differently. */
  lemma ShowInjective(m: nat, n: nat)
    requires Show(m) == Show(n)
    ensures m == n
  {
    ReadShow(m);
    ReadShow(n);
  }

  /** The longest prefix of s made of digits. */
  function DigitRun(s: string): (d: string)
    ensures d <= s
    ensures forall i :: 0 <= i < |d| ==> IsDigit(d[i])
    ensures |d| < |s| ==> !IsDigit(s[|d|])
  {
    if |s| > 0 && IsDigit(s[0]) then [s[0]] + DigitRun(s[1..]) else []
  }

  /** The digit run of a digit string followed by a non-digit is that string. */
  lemma {:induction false} DigitRunOf(a: string, rest: string)
    requires forall i :: 0 <= i < |a| ==> IsDigit(a[i])
    requires |rest| == 0 || !IsDigit(rest[0])
    ensures DigitRun(a + rest) == a
  {
    if |a| > 0 {
      assert (a + rest)[1..] == a[1..] + rest;
      DigitRunOf(a[1..], rest);
    } else {
      assert a + rest == rest;
    }
  }
}

=== FILE: questions.dfy ===
/** `generate_questions_from_text`: the API-key check, the retrieval of the
    context, the outcome of the language-model request, and the checks and
    answer defaulting applied to the parsed reply. */
module Questions {
  import opened Wrappers
  import opened Words
  import opened Retriever
  import Decimal

  /** A JSON value as `json.loads` returns it. */
  datatype Json =
    | JNull
    | JBool(b: bool)
    | JNum(n: real)
    | JStr(s: string)
    | JArr(items: seq<Json>)
    | JObj(fields: map<string, Json>)

  /** A generated question: the key/value pairs of a JSON object. */
  type Question = map<string, Json>

  const AnswerKey: string := "answer"
  const NoAnswer: string := "No answer provided"

  /** Number of chunks retrieved as context for one request. */
  const ContextChunks: nat := 3

  /** Separator between retrieved chunks in the context block. */
  const ContextSeparator: string := "\n\n"

  /** Exceptions that escape the call instead of a return value. */
  datatype Exception =
    | EmptyIndex      // no chunk: the embedding matrix has no second dimension to size an index with
    | MissingContent  // the reply has no choices[0].message.content
    | NotAnObject     // a list element that has no `.get`

  /** A Python call: it returns a value or raises. */
  datatype Outcome<T> = Returned(value: T) | Raised(error: Exception)

  /** What the language-model service makes of one request. */
  datatype Reply =
    | RequestFailed                  // a request exception: connection error, error status, undecodable body
    | NoContent                      // a decoded body without choices[0].message.content
    | Content(parsed: Option<Json>)  // the message content parsed as JSON; None when parsing fails

  /** What the language-model request carries: the context block and the
      generation parameters the prompt and the system prompt are built from. */
  datatype Request = Request(context: string, numQuestions: nat, difficulty: string, questionType: string)

  const QueryHead: string := "Generate "

  /** The question count a retrieval query asks for: the number written
      right after "Generate ". */
  function RequestedCount(query: string): Option<nat> {
    if QueryHead <= query then Some(Decimal.Read(Decimal.DigitRun(query[|QueryHead|..]))) else None
  }

  /** The retrieval query built from the generation parameters; it asks for
      exactly `numQuestions` questions. */
  function Query(numQuestions: nat, difficulty: string, questionType: string): (q: string)
    ensures RequestedCount(q) == Some(numQuestions)
  {
    var count := Decimal.Show(numQuestions);
    var rest := " " + questionType + " questions of " + difficulty + " difficulty";
    Decimal.DigitRunOf(count, rest);
    Decimal.ReadShow(numQuestions);
    AfterPrefix(QueryHead, count + rest);
    QueryHead + (count + rest)
  }

  lemma AfterPrefix(head: string, tail: string)
    ensures head <= head + tail && (head + tail)[|head|..] == tail
  {
  }

  /** `d.get(key, default)`. */
  function Get(d: map<string, Json>, key: string, default: Json): Json {
    if key in d then d[key] else default
  }

  /** The context block of the request for a text: the retrieved chunks
      joined by a blank line (empty when there is nothing to retrieve). */
  function Context(text: string, numQuestions: nat, difficulty: string, questionType: string,
                   embed: string -> Vector, isSpace: char -> bool): string
    requires FixedDimension(embed)
  {
    match Retrieve(text, Query(numQuestions, difficulty, questionType), ContextChunks, embed, isSpace)
    case Success(chunks) => JoinWith(ContextSeparator, chunks)
    case Failure(_) => ""
  }

  /** `q["answer"] = q.get("answer", "No answer provided")`: the question
      gains an answer when it has none; an existing answer and every other
      key stay as they were. */
  function WithAnswer(q: Question): (q': Question)
    ensures AnswerKey in q'
    ensures AnswerKey in q ==> q'[AnswerKey] == q[AnswerKey]
    ensures AnswerKey !in q ==> q'[AnswerKey] == JStr(NoAnswer)
    ensures q'.Keys == q.Keys + {AnswerKey}
    ensures forall k :: k in q && k != AnswerKey ==> q'[k] == q[k]
  {
    q[AnswerKey := Get(q, AnswerKey, JStr(NoAnswer))]
  }

  /** A question that already has an answer is left exactly as it is, so
      defaulting twice is defaulting once. */
  lemma WithAnswerIdempotent(q: Question)
    ensures AnswerKey in q ==> WithAnswer(q) == q
    ensures WithAnswer(WithAnswer(q)) == WithAnswer(q)
  {
    if AnswerKey in q {
      assert WithAnswer(q).Keys == q.Keys;
    }
    assert WithAnswer(WithAnswer(q)).Keys == WithAnswer(q).Keys;
  }

  /** The handling of the parsed reply: a non-empty list whose elements are
      all objects becomes its questions, each with an answer; a non-empty
      list with another element raises at that element's `.get`; anything
      else (not a list, or an empty list) gives None. */
  function Normalize(parsed: Json): (r: Outcome<Option<seq<Question>>>)
    ensures r == Returned(None) <==> !parsed.JArr? || |parsed.items| == 0
    ensures r.Raised? <==>
              parsed.JArr? && exists i :: 0 <= i < |parsed.items| && !parsed.items[i].JObj?
    ensures r.Raised? ==> r.error == NotAnObject
    ensures r.Returned? && r.value.Some? ==>
              && parsed.JArr?
              && |r.value.value| == |parsed.items| > 0
              && forall i :: 0 <= i < |r.value.value| ==>
                   parsed.items[i].JObj? && r.value.value[i] == WithAnswer(parsed.items[i].fields)
  {
    match parsed
    case JArr(items) =>
      if |items| == 0 then Returned(None)
      else if forall i :: 0 <= i < |items| ==> items[i].JObj? then
        Returned(Some(seq(|items|, i requires 0 <= i < |items| => WithAnswer(items[i].fields))))
      else Raised(NotAnObject)
    case _ => Returned(None)
  }

  /** `generate_questions_from_text(text, num_questions, difficulty, question_type)`.
      `hasApiKey` says whether the API key is configured; `service` is the
      language-model service, applied to the request: the context block and
      the generation parameters. Without an API key the call returns None
      before any retrieval; with one, a text without words raises while
      building the index; otherwise the reply to the request for that text
      decides: a failed request or an unparseable reply gives None, a reply
      without content raises, and parsed content is normalized. */
  function GenerateQuestions(hasApiKey: bool, text: string, numQuestions: nat,
                             difficulty: string, questionType: string,
                             embed: string -> Vector, isSpace: char -> bool,
                             service: Request -> Reply)
    : (r: Outcome<Option<seq<Question>>>)
    requires FixedDimension(embed)
    ensures !hasApiKey ==> r == Returned(None)
    ensures r == Raised(EmptyIndex) <==> hasApiKey && Split(text, isSpace) == []
    ensures r.Returned? && r.value.Some? ==>
              |r.value.value| > 0 && forall i :: 0 <= i < |r.value.value| ==> AnswerKey in r.value.value[i]
    ensures hasApiKey && Split(text, isSpace) != [] ==>
              var reply := service(Request(Context(text, numQuestions, difficulty, questionType, embed, isSpace),
                                           numQuestions, difficulty, questionType));
              && (reply == RequestFailed || reply == Content(None) ==> r == Returned(None))
              && (reply == NoContent ==> r == Raised(MissingContent))
              && (reply.Content? && reply.parsed.Some? ==> r == Normalize(reply.parsed.value))
  {
    if !hasApiKey then Returned(None)
    else
      match Retrieve(text, Query(numQuestions, difficulty, questionType), ContextChunks, embed, isSpace)
      case Failure(_) => Raised(EmptyIndex)
      case Success(chunks) =>
        match service(Request(JoinWith(ContextSeparator, chunks), numQuestions, difficulty, questionType))
        case RequestFailed => Returned(None)
        case NoContent => Raised(MissingContent)
        case Content(None) => Returned(None)
        case Content(Some(parsed)) => Normalize(parsed)
  }
}

=== FILE: quiz.dfy ===
/** The rules of the quiz page: the minimum-length gate, the retry loop
    around question generation, and the paragraphs of the quiz document. */
module Quiz {
  import opened Wrappers
  import opened Words
  import opened Retriever
  import opened Questions
  import Decimal

  /** Fewest words a document needs before generation is attempted. */
  const MinWords: nat := 50

  /** Most calls `generate_quiz` makes of the generator. */
  const MaxRetries: nat := 3

  /** The gate `not text or len(text.split()) < 50`. */
  function TooShort(text: string, isSpace: char -> bool): (b: bool)
    ensures b <==> |Split(text, isSpace)| < MinWords
  {
    text == "" || |Split(text, isSpace)| < MinWords
  }

  /** A text that passes the gate has words, so retrieval on it finds chunks
      and generation never fails for want of an index. */
  lemma GateExcludesEmptyIndex(text: string, numQuestions: nat, difficulty: string,
                               questionType: string, embed: string -> Vector,
                               isSpace: char -> bool, service: Request -> Reply)
    requires FixedDimension(embed)
    requires !TooShort(text, isSpace)
    ensures Retrieve(text, Query(numQuestions, difficulty, questionType), ContextChunks, embed, isSpace).Success?
    ensures GenerateQuestions(true, text, numQuestions, difficulty, questionType, embed, isSpace, service)
              != Raised(EmptyIndex)
  {
  }

  /** Python truthiness of a generator result: a non-empty list. */
  predicate Truthy(v: Option<seq<Question>>) {
    v.Some? && |v.value| > 0
  }

  /** An attempt that returned a falsy value, so the loop goes on. */
  predicate Falsy(o: Outcome<Option<seq<Question>>>) {
    o.Returned? && !Truthy(o.value)
  }

  /** `generate_quiz`: call the generator up to three times and return the
      first truthy result. `attempt(n)` is the outcome of the n-th call
      (counting from 0); an exception from a call ends the loop and
      propagates. `calls` is the number of calls made. */
  method GenerateQuiz(attempt: nat -> Outcome<Option<seq<Question>>>)
    returns (r: Outcome<Option<seq<Question>>>, calls: nat)
    ensures 1 <= calls <= MaxRetries
    ensures forall n :: 0 <= n < calls - 1 ==> Falsy(attempt(n))
    ensures !Falsy(attempt(calls - 1)) ==> r == attempt(calls - 1)
    ensures calls < MaxRetries ==> !Falsy(attempt(calls - 1))
    ensures r.Returned? ==> r.value.None? || Truthy(r.value)
    ensures r == Returned(None) <==> forall n :: 0 <= n < MaxRetries ==> Falsy(attempt(n))
  {
    calls := 0;
    while calls < MaxRetries
      invariant calls <= MaxRetries
      invariant forall n :: 0 <= n < calls ==> Falsy(attempt(n))
    {
      var quiz := attempt(calls);
      calls := calls + 1;
      if !Falsy(quiz) {
        return quiz, calls;
      }
    }
    return Returned(None), calls;
  }

  /** Paragraph styles the document uses. */
  datatype Style = ListNumber | ListBullet | IntenseQuote | Normal

  /** A paragraph of the quiz document. */
  datatype Paragraph = Heading(text: string, level: nat) | Para(text: string, style: Style)

  const Title: string := "Generated Quiz"
  const QuestionKey: string := "question"
  const NoQuestion: string := "No question provided"
  const TypeKey: string := "type"
  const OptionsKey: string := "options"
  const MultipleChoice: string := "MCQ"
  const AnswerPrefix: string := "Answer: "

  /** Code point of the first option label, 'a'. */
  const FirstLabel: nat := 97

  /** Option positions whose label chr(97 + j) is a Unicode scalar value
      below the surrogate block. */
  const LabelLimit: nat := 0xD800 - FirstLabel

  /** Why the document cannot be written. */
  datatype DocumentError =
    | NotIterable     // an "options" value that is not a list or a string
    | TooManyOptions  // more options than there are labels below the surrogate block

  /** How an f-string shows a JSON value: a string as itself, any other
      value as Python's `str()` writes it, which `show` stands for. */
  function Render(v: Json, show: Json -> string): string {
    if v.JStr? then v.s else show(v)
  }

  /** What `for opt in value` visits: the items of a list, the characters
      of a string; other values are not iterable. */
  function Iterate(v: Json): Option<seq<Json>> {
    match v
    case JArr(items) => Some(items)
    case JStr(s) => Some(seq(|s|, i requires 0 <= i < |s| => JStr([s[i]])))
    case _ => None
  }

  /** The option label `chr(97 + j)`. */
  function Label(j: nat): (c: char)
    requires j < LabelLimit
    ensures c as int == FirstLabel + j
  {
    (FirstLabel + j) as char
  }

  /** `Q{i+1}: ` */
  function QuestionPrefix(i: nat): string {
    "Q" + Decimal.Show(i + 1) + ": "
  }

  /** `{label}. ` */
  function OptionPrefix(j: nat): string
    requires j < LabelLimit
  {
    [Label(j)] + ". "
  }

  /** Whether question q lists its options: type "MCQ" and an "options" key. */
  predicate ListsOptions(q: Question) {
    TypeKey in q && q[TypeKey] == JStr(MultipleChoice) && OptionsKey in q
  }

  /** Bulleted option paragraphs, labelled from position j on. */
  function OptionParagraphs(opts: seq<Json>, j: nat, show: Json -> string): seq<Paragraph>
    requires j + |opts| <= LabelLimit
    decreases |opts|
  {
    if |opts| == 0 then []
    else [Para(OptionPrefix(j) + Render(opts[0], show), ListBullet)]
         + OptionParagraphs(opts[1..], j + 1, show)
  }

  /** The t-th option paragraph is a bullet labelled with the letter of code
      point 97 + j + t, followed by the t-th option: options keep their order
      and take consecutive letters. */
  lemma {:induction false} OptionLabels(opts: seq<Json>, j: nat, show: Json -> string, t: nat)
    requires j + |opts| <= LabelLimit
    requires t < |opts|
    ensures |OptionParagraphs(opts, j, show)| == |opts|
    ensures OptionParagraphs(opts, j, show)[t]
              == Para([Label(j + t)] + ". " + Render(opts[t], show), ListBullet)
    ensures OptionParagraphs(opts, j, show)[t].text[0] as int == FirstLabel + j + t
    decreases |opts|
  {
    OptionParagraphsLength(opts, j, show);
    if t > 0 {
      OptionLabels(opts[1..], j + 1, show, t - 1);
      assert opts[1..][t - 1] == opts[t];
    }
  }

  /** The option values question q lists in the document: none unless it is
      multiple choice with iterable options. */
  function ListedOptions(q: Question): seq<Json> {
    if ListsOptions(q) && Iterate(q[OptionsKey]).Some? then Iterate(q[OptionsKey]).value else []
  }

  /** Question q makes the writer raise: it is multiple choice and its
      options are not iterable, or there are more of them than labels. */
  predicate Unwritable(q: Question) {
    && ListsOptions(q)
    && (Iterate(q[OptionsKey]).None? || |Iterate(q[OptionsKey]).value| > LabelLimit)
  }

  /** The paragraphs for question i: its numbered question, its options
      when it is multiple choice, its answer, and a blank paragraph.
      Writing fails exactly for an unwritable question; otherwise there is
      one paragraph per listed option and three more. */
  function QuestionParagraphs(i: nat, q: Question, show: Json -> string)
    : (r: Result<seq<Paragraph>, DocumentError>)
    ensures r.Failure? <==> Unwritable(q)
    ensures r.Failure? ==> (r.error == NotIterable <==> Iterate(q[OptionsKey]).None?)
    ensures r.Success? ==> |r.value| == 3 + |ListedOptions(q)|
  {
    var head := Para(QuestionPrefix(i) + Render(Get(q, QuestionKey, JStr(NoQuestion)), show), ListNumber);
    var tail := [Para(AnswerPrefix + Render(Get(q, AnswerKey, JStr(NoAnswer)), show), IntenseQuote),
                 Para("", Normal)];
    if !ListsOptions(q) then Success([head] + tail)
    else
      match Iterate(q[OptionsKey])
      case None => Failure(NotIterable)
      case Some(opts) =>
        if |opts| > LabelLimit then Failure(TooManyOptions)
        else
          OptionParagraphsLength(opts, 0, show);
          Success([head] + OptionParagraphs(opts, 0, show) + tail)
  }

  /** The paragraphs for the questions, numbered from `first` on. Writing
      fails exactly when some question is unwritable, and otherwise gives at
      least three paragraphs per question. */
  function QuizParagraphs(quiz: seq<Question>, first: nat, show: Json -> string)
    : (r: Result<seq<Paragraph>, DocumentError>)
    ensures r.Failure? <==> exists i :: 0 <= i < |quiz| && Unwritable(quiz[i])
    ensures r.Success? ==> |r.value| >= 3 * |quiz|
    decreases |quiz|
  {
    if |quiz| == 0 then Success([])
    else
      match QuestionParagraphs(first, quiz[0], show)
      case Failure(e) => Failure(e)
      case Success(ps) =>
        match QuizParagraphs(quiz[1..], first + 1, show)
        case Failure(e) => Failure(e)
        case Success(rest) => Success(ps + rest)
  }

  /** The paragraphs of the document `get_docx_download_button` writes:
      the heading, then each question's paragraphs in order. Python raises
      while iterating options exactly when some multiple-choice question has
      options that cannot be written. */
  function QuizDocument(quiz: seq<Question>, show: Json -> string): (r: Result<seq<Paragraph>, DocumentError>)
    ensures r.Failure? <==> exists i :: 0 <= i < |quiz| && Unwritable(quiz[i])
    ensures r.Success? ==> |r.value| >= 1 + 3 * |quiz|
  {
    match QuizParagraphs(quiz, 0, show)
    case Failure(e) => Failure(e)
    case Success(ps) => Success([Heading(Title, 1)] + ps)
  }

  /** What a reader sees of one question: its text, its option texts and its answer. */
  datatype Entry = Entry(question: string, options: seq<string>, answer: string)

  /** The texts of option values, in order. */
  function RenderAll(opts: seq<Json>, show: Json -> string): (texts: seq<string>)
    ensures |texts| == |opts|
    ensures forall i :: 0 <= i < |opts| ==> texts[i] == Render(opts[i], show)
    decreases |opts|
  {
    if |opts| == 0 then [] else [Render(opts[0], show)] + RenderAll(opts[1..], show)
  }

  /** The entry question q should read back as. */
  function Shown(q: Question, show: Json -> string): Entry
  {
    var opts := ListedOptions(q);
    Entry(Render(Get(q, QuestionKey, JStr(NoQuestion)), show),
          RenderAll(opts, show),
          Render(Get(q, AnswerKey, JStr(NoAnswer)), show))
  }

  function StripPrefix(prefix: string, s: string): Option<string> {
    if prefix <= s then Some(s[|prefix|..]) else None
  }

  /** Reads the leading bulleted paragraphs as options labelled from
      position j on; None when a bullet carries the wrong label. */
  function ReadOptions(ps: seq<Paragraph>, j: nat): (r: Option<seq<string>>)
    ensures r.Some? ==> |r.value| <= |ps|
    decreases |ps|
  {
    if |ps| == 0 || !(ps[0].Para? && ps[0].style == ListBullet) then Some([])
    else if j >= LabelLimit then None
    else
      match StripPrefix(OptionPrefix(j), ps[0].text)
      case None => None
      case Some(opt) =>
        match ReadOptions(ps[1..], j + 1)
        case None => None
        case Some(rest) => Some([opt] + rest)
  }

  /** Reads question paragraphs back into entries, expecting the numbering
      to start at `first`; None when the paragraphs are not in that shape. */
  function ReadQuestions(ps: seq<Paragraph>, first: nat): Option<seq<Entry>>
    decreases |ps|
  {
    if |ps| == 0 then Some([])
    else if !(ps[0].Para? && ps[0].style == ListNumber) then None
    else
      match StripPrefix(QuestionPrefix(first), ps[0].text)
      case None => None
      case Some(question) =>
        match ReadOptions(ps[1..], 0)
        case None => None
        case Some(opts) =>
          var k := 1 + |opts|;
          if k + 2 <= |ps| && ps[k].Para? && ps[k].style == IntenseQuote
             && ps[k + 1] == Para("", Normal) then
            match StripPrefix(AnswerPrefix, ps[k].text)
            case None => None
            case Some(answer) =>
              match ReadQuestions(ps[k + 2..], first + 1)
              case None => None
              case Some(rest) => Some([Entry(question, opts, answer)] + rest)
          else None
  }

  /** Reads a whole document: the heading, then the questions from Q1 on. */
  function ReadDocument(ps: seq<Paragraph>): Option<seq<Entry>> {
    if |ps| > 0 && ps[0] == Heading(Title, 1) then ReadQuestions(ps[1..], 0) else None
  }

  lemma StripPrefixOf(prefix: string, s: string)
    ensures StripPrefix(prefix, prefix + s) == Some(s)
  {
    assert prefix <= prefix + s;
    assert (prefix + s)[|prefix|..] == s;
  }

  /** Option paragraphs read back as the rendered options, whatever follows
      them as long as it is not a bullet. */
  lemma {:induction false} ReadOptionParagraphs(opts: seq<Json>, j: nat, show: Json -> string,
                                               tail: seq<Paragraph>)
    requires j + |opts| <= LabelLimit
    requires |tail| > 0 && tail[0].Para? && tail[0].style != ListBullet
    ensures ReadOptions(OptionParagraphs(opts, j, show) + tail, j) == Some(RenderAll(opts, show))
    decreases |opts|
  {
    var ps := OptionParagraphs(opts, j, show) + tail;
    if |opts| == 0 {
      assert ps == tail;
    } else {
      var text := OptionPrefix(j) + Render(opts[0], show);
      assert ps[0] == Para(text, ListBullet);
      assert ps[1..] == OptionParagraphs(opts[1..], j + 1, show) + tail;
      StripPrefixOf(OptionPrefix(j), Render(opts[0], show));
      ReadOptionParagraphs(opts[1..], j + 1, show, tail);
    }
  }

  /** The paragraphs of a written question, spelled out: the question line,
      the option bullets, the answer line and the blank paragraph. */
  lemma QuestionParagraphsAre(i: nat, q: Question, show: Json -> string)
    requires QuestionParagraphs(i, q, show).Success?
    ensures |ListedOptions(q)| <= LabelLimit
    ensures QuestionParagraphs(i, q, show).value
              == [Para(QuestionPrefix(i) + Shown(q, show).question, ListNumber)]
                 + OptionParagraphs(ListedOptions(q), 0, show)
                 + [Para(AnswerPrefix + Shown(q, show).answer, IntenseQuote), Para("", Normal)]
  {
  }

  /** The layout of question i: a numbered paragraph "Q{i+1}: " with the
      question, or "No question provided" without one; then one bullet per
      listed option; then "Answer: " with the answer, or "No answer
      provided" without one, as a quote; then a blank paragraph. */
  lemma QuestionLayout(i: nat, q: Question, show: Json -> string)
    requires QuestionParagraphs(i, q, show).Success?
    ensures var ps := QuestionParagraphs(i, q, show).value;
            var n := |ListedOptions(q)|;
            && |ps| == n + 3
            && ps[0] == Para(QuestionPrefix(i) + (if QuestionKey in q then Render(q[QuestionKey], show)
                                                  else NoQuestion), ListNumber)
            && (forall t :: 1 <= t <= n ==> ps[t].Para? && ps[t].style == ListBullet)
            && ps[n + 1] == Para(AnswerPrefix + (if AnswerKey in q then Render(q[AnswerKey], show)
                                                 else NoAnswer), IntenseQuote)
            && ps[n + 2] == Para("", Normal)
  {
    var ps := QuestionParagraphs(i, q, show).value;
    var opts := ListedOptions(q);
    QuestionParagraphsAre(i, q, show);
    OptionParagraphsLength(opts, 0, show);
    forall t | 1 <= t <= |opts|
      ensures ps[t].Para? && ps[t].style == ListBullet
    {
      OptionLabels(opts, 0, show, t - 1);
    }
  }

  /** One step of the reader: a numbered question line, options, an answer
      line and a blank paragraph give one entry, then the reading goes on. */
  lemma ReadQuestionsStep(ps: seq<Paragraph>, first: nat, question: string, opts: seq<string>,
                          answer: string)
    requires |ps| >= |opts| + 3
    requires ps[0] == Para(QuestionPrefix(first) + question, ListNumber)
    requires ReadOptions(ps[1..], 0) == Some(opts)
    requires ps[|opts| + 1] == Para(AnswerPrefix + answer, IntenseQuote)
    requires ps[|opts| + 2] == Para("", Normal)
    ensures ReadQuestions(ps, first)
            == match ReadQuestions(ps[|opts| + 3..], first + 1)
               case None => None
               case Some(entries) => Some([Entry(question, opts, answer)] + entries)
  {
    StripPrefixOf(QuestionPrefix(first), question);
    StripPrefixOf(AnswerPrefix, answer);
  }

  /** A question paragraph, option paragraphs and the answer pair, followed
      by anything, read back as one entry and then whatever the rest reads as. */
  lemma ReadOneQuestion(all: seq<Paragraph>, first: nat, question: string, opars: seq<Paragraph>,
                        opts: seq<string>, answer: string, rest: seq<Paragraph>)
    requires |opts| == |opars|
    requires all == [Para(QuestionPrefix(first) + question, ListNumber)] + opars
                    + [Para(AnswerPrefix + answer, IntenseQuote), Para("", Normal)] + rest
    requires ReadOptions(opars + ([Para(AnswerPrefix + answer, IntenseQuote), Para("", Normal)] + rest), 0)
               == Some(opts)
    ensures ReadQuestions(all, first)
            == match ReadQuestions(rest, first + 1)
               case None => None
               case Some(entries) => Some([Entry(question, opts, answer)] + entries)
  {
    var head := Para(QuestionPrefix(first) + question, ListNumber);
    var tail := [Para(AnswerPrefix + answer, IntenseQuote), Para("", Normal)];
    var after := tail + rest;
    var k := 1 + |opts|;
    assert && |all| >= |opts| + 3
           && all[0] == head
           && all[1..] == opars + after
           && all[k] == tail[0]
           && all[k + 1] == tail[1]
           && all[k + 2..] == rest
    by {
      assert all == [head] + (opars + after);
      assert all[k] == after[0];
      assert all[k + 1] == after[1];
      assert all[k + 2..] == after[2..];
    }
    ReadQuestionsStep(all, first, question, opts, answer);
  }


  /** One question's paragraphs, followed by anything, read back as its entry
      and then whatever the rest reads as. */
  lemma ReadQuestionParagraphs(i: nat, q: Question, show: Json -> string,
                               ps: seq<Paragraph>, rest: seq<Paragraph>)
    requires QuestionParagraphs(i, q, show) == Success(ps)
    ensures ReadQuestions(ps + rest, i) ==
              match ReadQuestions(rest, i + 1)
              case None => None
              case Some(entries) => Some([Shown(q, show)] + entries)
  {
    QuestionParagraphsAre(i, q, show);
    var e := Shown(q, show);
    var opts := ListedOptions(q);
    var opars := OptionParagraphs(opts, 0, show);
    var tail := [Para(AnswerPrefix + e.answer, IntenseQuote), Para("", Normal)];
    ReadOptionParagraphs(opts, 0, show, tail + rest);
    OptionParagraphsLength(opts, 0, show);
    assert ps + rest == [Para(QuestionPrefix(i) + e.question, ListNumber)] + opars + tail + rest;
    ReadOneQuestion(ps + rest, i, e.question, opars, e.options, e.answer, rest);
  }

  lemma {:induction false} OptionParagraphsLength(opts: seq<Json>, j: nat, show: Json -> string)
    requires j + |opts| <= LabelLimit
    ensures |OptionParagraphs(opts, j, show)| == |opts|
    decreases |opts|
  {
    if |opts| > 0 {
      OptionParagraphsLength(opts[1..], j + 1, show);
    }
  }

  /** The entries questions should read back as, in order. */
  function Entries(quiz: seq<Question>, show: Json -> string): (entries: seq<Entry>)
    ensures |entries| == |quiz|
    ensures forall i :: 0 <= i < |quiz| ==> entries[i] == Shown(quiz[i], show)
    decreases |quiz|
  {
    if |quiz| == 0 then [] else [Shown(quiz[0], show)] + Entries(quiz[1..], show)
  }

  /** Written questions are the first question's paragraphs followed by the others'. */
  lemma QuizParagraphsStep(quiz: seq<Question>, first: nat, show: Json -> string)
    requires |quiz| > 0
    requires QuizParagraphs(quiz, first, show).Success?
    ensures QuestionParagraphs(first, quiz[0], show).Success?
    ensures QuizParagraphs(quiz[1..], first + 1, show).Success?
    ensures QuizParagraphs(quiz, first, show).value
              == QuestionParagraphs(first, quiz[0], show).value + QuizParagraphs(quiz[1..], first + 1, show).value
  {
  }

  /** Reading back the questions' paragraphs gives each question's entry, in order. */
  lemma {:induction false} ReadQuizParagraphs(quiz: seq<Question>, first: nat, show: Json -> string,
                                             ps: seq<Paragraph>)
    requires QuizParagraphs(quiz, first, show) == Success(ps)
    ensures ReadQuestions(ps, first) == Some(Entries(quiz, show))
    decreases |quiz|
  {
    if |quiz| > 0 {
      QuizParagraphsStep(quiz, first, show);
      var head := QuestionParagraphs(first, quiz[0], show).value;
      var rest := QuizParagraphs(quiz[1..], first + 1, show).value;
      ReadQuizParagraphs(quiz[1..], first + 1, show, rest);
      ReadQuestionParagraphs(first, quiz[0], show, head, rest);
    }
  }

  /** Whenever the document can be written, reading it back gives every
      question's text, its options in their original order, and its answer,
      question by question, with the numbering Q1, Q2, ... checked on the way. */
  lemma DocumentReadsBack(quiz: seq<Question>, show: Json -> string)
    requires QuizDocument(quiz, show).Success?
    ensures ReadDocument(QuizDocument(quiz, show).value) == Some(Entries(quiz, show))
  {
    var ps := QuizParagraphs(quiz, 0, show).value;
    ReadQuizParagraphs(quiz, 0, show, ps);
    assert ([Heading(Title, 1)] + ps)[1..] == ps;
  }
}

=== FILE: retriever.dfy ===
/** `retrieve_relevant_chunks`: rank the chunks of a document by squared
    Euclidean distance between their embeddings and the query's, as an
    exact flat L2 index does, and return the chunk texts of the top_k labels. */
module Retriever {
  import opened Wrappers
  import opened Chunker

  type Vector = seq<real>

  /** The sentence-embedding model: every text maps to a vector of one
      fixed dimension. */
  ghost predicate FixedDimension(embed: string -> Vector) {
    forall s: string, t: string :: |embed(s)| == |embed(t)|
  }

  /** Squared Euclidean distance, the score an exact flat L2 index reports. */
  function SqDist(a: Vector, b: Vector): (d: real)
    requires |a| == |b|
    ensures d >= 0.0
  {
    if |a| == 0 then 0.0
    else
      var x := a[0] - b[0];
      Square(x);
      x * x + SqDist(a[1..], b[1..])
  }

  lemma Square(x: real)
    ensures x * x >= 0.0
  {
    if x < 0.0 {
      var z := -x;
      assert z * z > 0.0;
      assert z * z == x * x;
    } else if x > 0.0 {
      assert x * x > 0.0;
    }
  }

  /** A vector is at distance zero from itself. */
  lemma {:induction false} SqDistSelf(a: Vector)
    ensures SqDist(a, a) == 0.0
  {
    if |a| > 0 {
      SqDistSelf(a[1..]);
      assert (a[0] - a[0]) * (a[0] - a[0]) == 0.0;
    }
  }

  /** 0, 1, ..., n - 1: the row numbers of an index holding n vectors. */
  function Rows(n: nat): (rs: seq<nat>)
    ensures |rs| == n
    ensures forall i :: 0 <= i < n ==> rs[i] == i
  {
    seq(n, i => i)
  }

  predicate InRange(cand: seq<nat>, n: nat) {
    forall i :: 0 <= i < |cand| ==> cand[i] < n
  }

  ghost predicate Distinct<T>(s: seq<T>) {
    forall i, j :: 0 <= i < j < |s| ==> s[i] != s[j]
  }

  /** Position in `cand` of the first candidate at least as near as every
      other one; earlier candidates are all strictly farther. */
  function FirstNearest(d: seq<real>, cand: seq<nat>): (m: nat)
    requires |cand| > 0 && InRange(cand, |d|)
    ensures m < |cand|
    ensures forall i :: 0 <= i < |cand| ==> d[cand[m]] <= d[cand[i]]
    ensures forall i :: 0 <= i < m ==> d[cand[m]] < d[cand[i]]
  {
    if |cand| == 1 then 0
    else
      var m := FirstNearest(d, cand[1..]) + 1;
      assert forall i :: 1 <= i < |cand| ==> cand[i] == cand[1..][i - 1];
      if d[cand[0]] <= d[cand[m]] then 0 else m
  }

  function RemoveAt<T>(s: seq<T>, m: nat): (r: seq<T>)
    requires m < |s|
    ensures |r| == |s| - 1
    ensures forall i :: 0 <= i < m ==> r[i] == s[i]
    ensures forall i :: m <= i < |r| ==> r[i] == s[i + 1]
  {
    s[..m] + s[m + 1..]
  }

  lemma RemoveAtMembers<T>(s: seq<T>, m: nat)
    requires m < |s|
    ensures forall x :: x in RemoveAt(s, m) ==> x in s
    ensures Distinct(s) ==> s[m] !in RemoveAt(s, m) && Distinct(RemoveAt(s, m))
    ensures forall x :: x in s && x != s[m] ==> x in RemoveAt(s, m)
  {
    var r := RemoveAt(s, m);
    forall x | x in s && x != s[m]
      ensures x in r
    {
      var i :| 0 <= i < |s| && s[i] == x;
      if i < m {
        assert r[i] == x;
      } else {
        assert r[i - 1] == x;
      }
    }
  }

  /** The k nearest candidates, nearest first, by repeatedly taking the first
      nearest of the candidates not yet taken. Among equal distances this
      takes the earlier candidate first. */
  function SelectNearest(d: seq<real>, cand: seq<nat>, k: nat): (sel: seq<nat>)
    requires InRange(cand, |d|)
    ensures |sel| == Min(k, |cand|)
    ensures InRange(sel, |d|)
    decreases k
  {
    if k == 0 || |cand| == 0 then []
    else
      var m := FirstNearest(d, cand);
      RemoveAtMembers(cand, m);
      [cand[m]] + SelectNearest(d, RemoveAt(cand, m), k - 1)
  }

  /** sel draws from the candidates, takes no candidate twice when the
      candidates are distinct, lists its picks nearest first, and leaves out
      no candidate nearer than a pick. */
  ghost predicate NearestFirst(d: seq<real>, cand: seq<nat>, sel: seq<nat>)
    requires InRange(sel, |d|) && InRange(cand, |d|)
  {
    && (forall i :: 0 <= i < |sel| ==> sel[i] in cand)
    && (Distinct(cand) ==> Distinct(sel))
    && (forall i, j :: 0 <= i < j < |sel| ==> d[sel[i]] <= d[sel[j]])
    && (forall i, c :: 0 <= i < |sel| && c in cand && c !in sel ==> d[sel[i]] <= d[c])
  }

  /** The selection draws from the candidates, takes no candidate twice,
      lists its picks nearest first, and leaves out no candidate nearer than
      a pick. */
  lemma {:induction false} SelectionIsNearest(d: seq<real>, cand: seq<nat>, k: nat)
    requires InRange(cand, |d|)
    ensures NearestFirst(d, cand, SelectNearest(d, cand, k))
    decreases k
  {
    if k > 0 && |cand| > 0 {
      var m := FirstNearest(d, cand);
      RemoveAtMembers(cand, m);
      var rest := SelectNearest(d, RemoveAt(cand, m), k - 1);
      SelectionIsNearest(d, RemoveAt(cand, m), k - 1);
      SelectStep(d, cand, m, rest);
      assert SelectNearest(d, cand, k) == [cand[m]] + rest;
    }
  }

  /** Taking the first nearest candidate, then a selection of the others
      that keeps the selection contract, keeps the contract. */
  lemma SelectStep(d: seq<real>, cand: seq<nat>, m: nat, rest: seq<nat>)
    requires InRange(cand, |d|) && m < |cand| && InRange(rest, |d|)
    requires forall i :: 0 <= i < |cand| ==> d[cand[m]] <= d[cand[i]]
    requires NearestFirst(d, RemoveAt(cand, m), rest)
    ensures NearestFirst(d, cand, [cand[m]] + rest)
  {
    var others := RemoveAt(cand, m);
    RemoveAtMembers(cand, m);
    forall c | c in cand
      ensures d[cand[m]] <= d[c]
    {
      var i :| 0 <= i < |cand| && cand[i] == c;
    }
    StepMembers(cand, m, rest);
    if Distinct(cand) {
      StepDistinct(cand, m, rest);
    }
    StepOrder(d, cand, m, rest);
    StepNoNearer(d, cand, m, rest);
  }

  lemma StepMembers(cand: seq<nat>, m: nat, rest: seq<nat>)
    requires m < |cand|
    requires forall x :: x in RemoveAt(cand, m) ==> x in cand
    requires forall i :: 0 <= i < |rest| ==> rest[i] in RemoveAt(cand, m)
    ensures forall i :: 0 <= i < |[cand[m]] + rest| ==> ([cand[m]] + rest)[i] in cand
  {
    var sel := [cand[m]] + rest;
    forall i | 0 <= i < |sel|
      ensures sel[i] in cand
    {
      if i > 0 {
        assert sel[i] == rest[i - 1];
      }
    }
  }

  lemma StepDistinct(cand: seq<nat>, m: nat, rest: seq<nat>)
    requires m < |cand|
    requires cand[m] !in RemoveAt(cand, m)
    requires Distinct(rest)
    requires forall i :: 0 <= i < |rest| ==> rest[i] in RemoveAt(cand, m)
    ensures Distinct([cand[m]] + rest)
  {
    var sel := [cand[m]] + rest;
    forall i, j | 0 <= i < j < |sel|
      ensures sel[i] != sel[j]
    {
      assert sel[j] == rest[j - 1];
      if i > 0 {
        assert sel[i] == rest[i - 1];
      }
    }
  }

  lemma StepOrder(d: seq<real>, cand: seq<nat>, m: nat, rest: seq<nat>)
    requires InRange(cand, |d|) && m < |cand| && InRange(rest, |d|)
    requires forall c :: c in cand ==> d[cand[m]] <= d[c]
    requires forall x :: x in RemoveAt(cand, m) ==> x in cand
    requires forall i :: 0 <= i < |rest| ==> rest[i] in RemoveAt(cand, m)
    requires forall i, j :: 0 <= i < j < |rest| ==> d[rest[i]] <= d[rest[j]]
    ensures var sel := [cand[m]] + rest;
            forall i, j :: 0 <= i < j < |sel| ==> d[sel[i]] <= d[sel[j]]
  {
    var sel := [cand[m]] + rest;
    forall i, j | 0 <= i < j < |sel|
      ensures d[sel[i]] <= d[sel[j]]
    {
      assert sel[j] == rest[j - 1];
      if i > 0 {
        assert sel[i] == rest[i - 1];
      }
    }
  }

  lemma StepNoNearer(d: seq<real>, cand: seq<nat>, m: nat, rest: seq<nat>)
    requires InRange(cand, |d|) && m < |cand| && InRange(rest, |d|)
    requires forall c :: c in cand ==> d[cand[m]] <= d[c]
    requires forall x :: x in cand && x != cand[m] ==> x in RemoveAt(cand, m)
    requires forall i, c :: 0 <= i < |rest| && c in RemoveAt(cand, m) && c !in rest ==> d[rest[i]] <= d[c]
    ensures var sel := [cand[m]] + rest;
            forall i, c :: 0 <= i < |sel| && c in cand && c !in sel ==> d[sel[i]] <= d[c]
  {
    var sel := [cand[m]] + rest;
    forall i, c | 0 <= i < |sel| && c in cand && c !in sel
      ensures d[sel[i]] <= d[c]
    {
      if i > 0 {
        assert sel[i] == rest[i - 1];
        assert c != cand[m];
        assert c !in rest;
      }
    }
  }

  /** Labels of an exact flat L2 index search for the k nearest of the rows
      at distances d: the ranked row numbers, then -1 for every slot beyond
      the number of rows. */
  function SearchLabels(d: seq<real>, k: nat): (labels: seq<int>)
    ensures |labels| == k
    ensures forall i :: 0 <= i < k ==> (i < |d| <==> 0 <= labels[i] < |d|)
    ensures forall i :: |d| <= i < k ==> labels[i] == -1
  {
    var ranked := SelectNearest(d, Rows(|d|), k);
    SelectionIsNearest(d, Rows(|d|), k);
    var padding: seq<int> := seq(k - |ranked|, _ => -1);
    ranked + padding
  }

  /** What any exact k-nearest search over rows at distances d must return,
      whatever order it gives to equal distances: k distinct rows, nearest
      first, with no row left out that is nearer than one returned. */
  ghost predicate IsTopK(d: seq<real>, sel: seq<nat>, k: nat) {
    && |sel| == k <= |d|
    && InRange(sel, |d|)
    && Distinct(sel)
    && (forall i, j :: 0 <= i < j < k ==> d[sel[i]] <= d[sel[j]])
    && (forall i, c :: 0 <= i < k && 0 <= c < |d| && c !in sel ==> d[sel[i]] <= d[c])
  }

  /** The model's selection is one such search result. */
  lemma SelectionIsTopK(d: seq<real>, k: nat)
    requires k <= |d|
    ensures IsTopK(d, SelectNearest(d, Rows(|d|), k), k)
  {
    var rows := Rows(|d|);
    var sel := SelectNearest(d, rows, k);
    SelectionIsNearest(d, rows, k);
    assert Distinct(rows);
    assert NearestFirst(d, rows, sel);
    assert Distinct(sel);
    forall i, c | 0 <= i < k && 0 <= c < |d| && c !in sel
      ensures d[sel[i]] <= d[c]
    {
      assert rows[c] == c;
    }
  }

  /** More distinct items than places: some item is not among the places. */
  lemma {:induction false} Pigeonhole(a: seq<nat>, b: seq<nat>)
    requires Distinct(a) && |a| > |b|
    ensures exists j :: 0 <= j < |a| && a[j] !in b
    decreases |a|
  {
    if a[0] in b {
      var p :| 0 <= p < |b| && b[p] == a[0];
      var b' := RemoveAt(b, p);
      RemoveAtMembers(b, p);
      assert Distinct(a[1..]);
      Pigeonhole(a[1..], b');
      var j :| 0 <= j < |a[1..]| && a[1..][j] !in b';
      assert a[j + 1] != a[0];
      assert a[j + 1] !in b;
    }
  }

  /** The row a top-k result puts at rank i is no nearer than the row any
      other top-k result puts there. */
  lemma RankNotNearer(d: seq<real>, s1: seq<nat>, s2: seq<nat>, k: nat, i: nat)
    requires IsTopK(d, s1, k) && IsTopK(d, s2, k) && i < k
    ensures d[s2[i]] <= d[s1[i]]
  {
    var a := s1[..i + 1];
    assert Distinct(a);
    Pigeonhole(a, s2[..i]);
    var j :| 0 <= j < |a| && a[j] !in s2[..i];
    var x := s1[j];
    assert d[x] <= d[s1[i]];
    if x in s2 {
      var p :| 0 <= p < k && s2[p] == x;
      assert forall q :: 0 <= q < i ==> s2[q] == s2[..i][q];
      assert i <= p;
      assert d[s2[i]] <= d[s2[p]];
    }
  }

  /** Top-k results differ at most in the order of equal distances: rank by
      rank, they return rows at the same distance. */
  lemma TopKDistancesAgree(d: seq<real>, s1: seq<nat>, s2: seq<nat>, k: nat)
    requires IsTopK(d, s1, k) && IsTopK(d, s2, k)
    ensures forall i :: 0 <= i < k ==> d[s1[i]] == d[s2[i]]
  {
    forall i | 0 <= i < k
      ensures d[s1[i]] == d[s2[i]]
    {
      RankNotNearer(d, s1, s2, k, i);
      RankNotNearer(d, s2, s1, k, i);
    }
  }

  /** Python's `s[i]` for -len(s) <= i < len(s): negative indices count from the end. */
  function PyIndex<T>(s: seq<T>, i: int): T
    requires -|s| <= i < |s|
  {
    if i >= 0 then s[i] else s[|s| + i]
  }

  datatype RetrievalError = EmptyCorpus

  /** Distance of a chunk text to the query, both embedded. */
  function Distance(embed: string -> Vector, chunk: string, query: string): real
    requires FixedDimension(embed)
  {
    SqDist(embed(chunk), embed(query))
  }

  /** The items at the given positions, in the order of the positions. */
  function Pick<T>(items: seq<T>, idx: seq<nat>): (r: seq<T>)
    requires InRange(idx, |items|)
    ensures |r| == |idx|
  {
    seq(|idx|, i requires 0 <= i < |idx| => items[idx[i]])
  }

  lemma PickAppend<T>(items: seq<T>, a: seq<nat>, b: seq<nat>)
    requires InRange(a, |items|) && InRange(b, |items|)
    ensures Pick(items, a + b) == Pick(items, a) + Pick(items, b)
  {
  }

  /** Removing candidate m removes exactly one occurrence of its item. */
  lemma PickRemoveAt<T>(items: seq<T>, cand: seq<nat>, m: nat)
    requires InRange(cand, |items|) && m < |cand|
    ensures multiset(Pick(items, cand)) == multiset(Pick(items, RemoveAt(cand, m))) + multiset{items[cand[m]]}
  {
    assert cand == cand[..m] + [cand[m]] + cand[m + 1..];
    PickAppend(items, cand[..m] + [cand[m]], cand[m + 1..]);
    PickAppend(items, cand[..m], [cand[m]]);
    PickAppend(items, cand[..m], cand[m + 1..]);
  }

  lemma AddOne<T>(x: T, a: multiset<T>, b: multiset<T>)
    requires a <= b
    ensures multiset{x} + a <= multiset{x} + b
  {
    assert forall y :: (multiset{x} + a)[y] == (if y == x then 1 else 0) + a[y];
    assert forall y :: (multiset{x} + b)[y] == (if y == x then 1 else 0) + b[y];
  }

  /** The selection takes each candidate's item at most as often as the
      candidates hold it. */
  lemma {:induction false} SelectionWithinCandidates<T>(items: seq<T>, d: seq<real>, cand: seq<nat>, k: nat)
    requires InRange(cand, |d|) && |items| == |d|
    ensures multiset(Pick(items, SelectNearest(d, cand, k))) <= multiset(Pick(items, cand))
    decreases k
  {
    var sel := SelectNearest(d, cand, k);
    if k == 0 || |cand| == 0 {
      assert Pick(items, sel) == [];
    } else {
      var m := FirstNearest(d, cand);
      var others := RemoveAt(cand, m);
      assert InRange(others, |d|);
      var rest := SelectNearest(d, others, k - 1);
      assert sel == [cand[m]] + rest;
      assert multiset(Pick(items, rest)) <= multiset(Pick(items, others)) by {
        SelectionWithinCandidates(items, d, others, k - 1);
      }
      MultiplicityStep(items, cand, m, rest, sel);
    }
  }

  /** When k covers the candidates, the selection takes every candidate's
      item exactly as often as the candidates hold it. */
  lemma {:induction false} SelectionTakesAll<T>(items: seq<T>, d: seq<real>, cand: seq<nat>, k: nat)
    requires InRange(cand, |d|) && |items| == |d|
    requires k >= |cand|
    ensures multiset(Pick(items, SelectNearest(d, cand, k))) == multiset(Pick(items, cand))
    decreases k
  {
    var sel := SelectNearest(d, cand, k);
    if |cand| == 0 {
      assert Pick(items, sel) == [];
      assert Pick(items, cand) == [];
    } else {
      var m := FirstNearest(d, cand);
      var others := RemoveAt(cand, m);
      assert InRange(others, |d|);
      var rest := SelectNearest(d, others, k - 1);
      assert sel == [cand[m]] + rest;
      assert multiset(Pick(items, rest)) == multiset(Pick(items, others)) by {
        SelectionTakesAll(items, d, others, k - 1);
      }
      MultiplicityStep(items, cand, m, rest, sel);
    }
  }

  /** Putting candidate m in front of a pick from the other candidates keeps
      the pick within the candidates' items, and equal to them when the
      pick from the others was. */
  lemma MultiplicityStep<T>(items: seq<T>, cand: seq<nat>, m: nat, rest: seq<nat>, sel: seq<nat>)
    requires InRange(cand, |items|) && InRange(rest, |items|) && m < |cand|
    requires sel == [cand[m]] + rest
    requires multiset(Pick(items, rest)) <= multiset(Pick(items, RemoveAt(cand, m)))
    ensures InRange(sel, |items|)
    ensures multiset(Pick(items, sel)) <= multiset(Pick(items, cand))
    ensures multiset(Pick(items, rest)) == multiset(Pick(items, RemoveAt(cand, m))) ==>
              multiset(Pick(items, sel)) == multiset(Pick(items, cand))
  {
    var removed := RemoveAt(cand, m);
    PickRemoveAt(items, cand, m);
    PickAppend(items, [cand[m]], rest);
    var x := items[cand[m]];
    assert Pick(items, [cand[m]]) == [x];
    assert multiset(Pick(items, sel)) == multiset{x} + multiset(Pick(items, rest));
    AddOne(x, multiset(Pick(items, rest)), multiset(Pick(items, removed)));
  }

  /** `retrieve_relevant_chunks(text, query, top_k)`. The chunks come from the
      default chunk size. With no chunk there is no embedding matrix to size
      an index from and the call fails. Otherwise the result has exactly
      top_k entries, all of them chunks: first the nearest chunks, each at
      most once, nearest first, with no chunk left out that is nearer than
      one returned; then, when top_k exceeds the number of chunks, the
      padding label -1 read as the last chunk. */
  function Retrieve(text: string, query: string, topK: nat,
                    embed: string -> Vector, isSpace: char -> bool)
    : (r: Result<seq<string>, RetrievalError>)
    requires FixedDimension(embed)
    ensures var chunks := ChunkText(text, DefaultChunkSize, isSpace);
            var ranked := Min(topK, |chunks|);
            && (r.Failure? <==> chunks == [])
            && (r.Success? ==>
                  && |r.value| == topK
                  && (forall i :: 0 <= i < topK ==> r.value[i] in chunks)
                  && multiset(r.value[..ranked]) <= multiset(chunks)
                  && (forall i, j :: 0 <= i < j < ranked ==>
                        Distance(embed, r.value[i], query) <= Distance(embed, r.value[j], query))
                  && (forall i, c :: 0 <= i < ranked && c in chunks && c !in r.value[..ranked] ==>
                        Distance(embed, r.value[i], query) <= Distance(embed, c, query))
                  && (topK >= |chunks| ==> multiset(r.value[..|chunks|]) == multiset(chunks))
                  && (forall i :: |chunks| <= i < topK ==> r.value[i] == chunks[|chunks| - 1]))
  {
    var chunks := ChunkText(text, DefaultChunkSize, isSpace);
    if |chunks| == 0 then Failure(EmptyCorpus)
    else
      var q := embed(query);
      var d := seq(|chunks|, i requires 0 <= i < |chunks| => SqDist(embed(chunks[i]), q));
      var labels := SearchLabels(d, topK);
      var r := seq(topK, i requires 0 <= i < topK => PyIndex(chunks, labels[i]));
      RankedChunksBag(chunks, d, topK, r);
      RankedChunksOrder(chunks, d, topK, r, embed, query);
      Success(r)
  }

  /** The chunk-level reading of the labels returned by the index search:
      which chunks come back, and how often. */
  lemma RankedChunksBag(chunks: seq<string>, d: seq<real>, topK: nat, r: seq<string>)
    requires |chunks| > 0 && |d| == |chunks|
    requires |r| == topK
    requires forall i :: 0 <= i < topK ==> r[i] == PyIndex(chunks, SearchLabels(d, topK)[i])
    ensures var ranked := Min(topK, |chunks|);
            && (forall i :: 0 <= i < topK ==> r[i] in chunks)
            && multiset(r[..ranked]) <= multiset(chunks)
            && (topK >= |chunks| ==> multiset(r[..|chunks|]) == multiset(chunks))
            && (forall i :: |chunks| <= i < topK ==> r[i] == chunks[|chunks| - 1])
  {
    var n := |chunks|;
    LabelsAsPicks(chunks, d, topK, r);
    assert Pick(chunks, Rows(n)) == chunks;
    SelectionWithinCandidates(chunks, d, Rows(n), topK);
    if topK >= n {
      SelectionTakesAll(chunks, d, Rows(n), topK);
    }
  }

  /** The chunk-level reading of the labels returned by the index search:
      in which order the ranked chunks come back. */
  lemma RankedChunksOrder(chunks: seq<string>, d: seq<real>, topK: nat, r: seq<string>,
                          embed: string -> Vector, query: string)
    requires FixedDimension(embed)
    requires |chunks| > 0 && |d| == |chunks|
    requires forall i :: 0 <= i < |chunks| ==> d[i] == Distance(embed, chunks[i], query)
    requires |r| == topK
    requires forall i :: 0 <= i < topK ==> r[i] == PyIndex(chunks, SearchLabels(d, topK)[i])
    ensures var ranked := Min(topK, |chunks|);
            && (forall i, j :: 0 <= i < j < ranked ==>
                  Distance(embed, r[i], query) <= Distance(embed, r[j], query))
            && (forall i, c :: 0 <= i < ranked && c in chunks && c !in r[..ranked] ==>
                  Distance(embed, r[i], query) <= Distance(embed, c, query))
  {
    var sel := SelectNearest(d, Rows(|chunks|), topK);
    LabelsAsPicks(chunks, d, topK, r);
    SelectionIsNearest(d, Rows(|chunks|), topK);
    PicksNearestFirst(chunks, d, sel, embed, query);
    var p := Pick(chunks, sel);
    assert forall i :: 0 <= i < |p| ==> r[i] == p[i];
    assert r[..Min(topK, |chunks|)] == p;
  }

  /** The first min(top_k, n) labels are the selection's row numbers, read
      as chunks; the rest are -1, read as the last chunk. */
  lemma LabelsAsPicks(chunks: seq<string>, d: seq<real>, topK: nat, r: seq<string>)
    requires |chunks| > 0 && |d| == |chunks|
    requires |r| == topK
    requires forall i :: 0 <= i < topK ==> r[i] == PyIndex(chunks, SearchLabels(d, topK)[i])
    ensures r[..Min(topK, |chunks|)] == Pick(chunks, SelectNearest(d, Rows(|chunks|), topK))
    ensures forall i :: 0 <= i < topK ==> r[i] in chunks
    ensures forall i :: |chunks| <= i < topK ==> r[i] == chunks[|chunks| - 1]
  {
  }

  /** Chunks picked by a nearest-first selection are in non-decreasing
      distance, and no chunk outside the picks is nearer than a pick. */
  lemma PicksNearestFirst(chunks: seq<string>, d: seq<real>, sel: seq<nat>,
                          embed: string -> Vector, query: string)
    requires FixedDimension(embed)
    requires |d| == |chunks| && InRange(sel, |d|)
    requires forall i :: 0 <= i < |chunks| ==> d[i] == Distance(embed, chunks[i], query)
    requires NearestFirst(d, Rows(|d|), sel)
    ensures var p := Pick(chunks, sel);
            && (forall i, j :: 0 <= i < j < |p| ==>
                  Distance(embed, p[i], query) <= Distance(embed, p[j], query))
            && (forall i, c :: 0 <= i < |p| && c in chunks && c !in p ==>
                  Distance(embed, p[i], query) <= Distance(embed, c, query))
  {
    var p := Pick(chunks, sel);
    forall i, c | 0 <= i < |p| && c in chunks && c !in p
      ensures Distance(embed, p[i], query) <= Distance(embed, c, query)
    {
      var j :| 0 <= j < |chunks| && chunks[j] == c;
      assert Rows(|d|)[j] == j;
      forall l | 0 <= l < |sel|
        ensures sel[l] != j
      {
        assert p[l] in p;
      }
    }
  }
}

=== FILE: words.dfy ===
/** Python's `str.split()` with no separator and `" ".join(words)`.
    The whitespace class is a parameter `isSpace`: Python uses the Unicode
    whitespace characters, and the model fixes no particular set. */
module Words {

  /** A word as `str.split()` yields it: non-empty, with no whitespace in it. */
  predicate IsWord(w: string, isSpace: char -> bool) {
    |w| > 0 && forall i :: 0 <= i < |w| ==> !isSpace(w[i])
  }

  predicate AllWords(ws: seq<string>, isSpace: char -> bool) {
    forall k :: 0 <= k < |ws| ==> IsWord(ws[k], isSpace)
  }

  /** Length of the run of non-whitespace characters that starts s. */
  function RunLength(s: string, isSpace: char -> bool): (n: nat)
    ensures n <= |s|
    ensures forall i :: 0 <= i < n ==> !isSpace(s[i])
    ensures n < |s| ==> isSpace(s[n])
  {
    if |s| == 0 || isSpace(s[0]) then 0 else 1 + RunLength(s[1..], isSpace)
  }

  /** `s.split()`: the maximal runs of non-whitespace characters, in order;
      leading, trailing and repeated whitespace produce no empty words. */
  function Split(s: string, isSpace: char -> bool): (ws: seq<string>)
    ensures AllWords(ws, isSpace)
    decreases |s|
  {
    if |s| == 0 then []
    else if isSpace(s[0]) then Split(s[1..], isSpace)
    else
      var n := RunLength(s, isSpace);
      [s[..n]] + Split(s[n..], isSpace)
  }

  /** `sep.join(ws)`. */
  function JoinWith(sep: string, ws: seq<string>): string
  {
    if |ws| == 0 then ""
    else if |ws| == 1 then ws[0]
    else ws[0] + sep + JoinWith(sep, ws[1..])
  }

  /** `" ".join(ws)`. */
  function Join(ws: seq<string>): string
  {
    JoinWith(" ", ws)
  }

  /** Concatenation of a sequence of sequences, with no separator. */
  function Flatten<T>(xss: seq<seq<T>>): seq<T>
  {
    if |xss| == 0 then [] else xss[0] + Flatten(xss[1..])
  }

  /** The characters of s that are not whitespace, in order. */
  function Ink(s: string, isSpace: char -> bool): string
  {
    if |s| == 0 then ""
    else if isSpace(s[0]) then Ink(s[1..], isSpace)
    else [s[0]] + Ink(s[1..], isSpace)
  }

  lemma {:induction false} FlattenAppend<T>(a: seq<seq<T>>, b: seq<seq<T>>)
    ensures Flatten(a + b) == Flatten(a) + Flatten(b)
  {
    if |a| > 0 {
      assert (a + b)[0] == a[0];
      assert (a + b)[1..] == a[1..] + b;
      FlattenAppend(a[1..], b);
      assert Flatten(a + b) == a[0] + (Flatten(a[1..]) + Flatten(b));
    } else {
      assert a + b == b;
    }
  }

  lemma {:induction false} InkAppend(a: string, b: string, isSpace: char -> bool)
    ensures Ink(a + b, isSpace) == Ink(a, isSpace) + Ink(b, isSpace)
  {
    if |a| > 0 {
      assert (a + b)[0] == a[0];
      assert (a + b)[1..] == a[1..] + b;
      InkAppend(a[1..], b, isSpace);
    } else {
      assert a + b == b;
    }
  }

  lemma {:induction false} InkOfWord(w: string, isSpace: char -> bool)
    requires forall i :: 0 <= i < |w| ==> !isSpace(w[i])
    ensures Ink(w, isSpace) == w
  {
    if |w| > 0 {
      InkOfWord(w[1..], isSpace);
    }
  }

  /** Splitting drops exactly the whitespace: the words, glued back together,
      are the non-whitespace characters of s in their original order. */
  lemma {:induction false} SplitKeepsEveryOtherChar(s: string, isSpace: char -> bool)
    ensures Flatten(Split(s, isSpace)) == Ink(s, isSpace)
    decreases |s|
  {
    if |s| == 0 {
    } else if isSpace(s[0]) {
      SplitKeepsEveryOtherChar(s[1..], isSpace);
    } else {
      var n := RunLength(s, isSpace);
      SplitKeepsEveryOtherChar(s[n..], isSpace);
      assert s == s[..n] + s[n..];
      InkAppend(s[..n], s[n..], isSpace);
      InkOfWord(s[..n], isSpace);
      assert Split(s, isSpace)[1..] == Split(s[n..], isSpace);
    }
  }

  lemma {:induction false} RunOfWord(w: string, t: string, isSpace: char -> bool)
    requires forall i :: 0 <= i < |w| ==> !isSpace(w[i])
    requires |t| == 0 || isSpace(t[0])
    ensures RunLength(w + t, isSpace) == |w|
  {
    if |w| > 0 {
      assert (w + t)[1..] == w[1..] + t;
      RunOfWord(w[1..], t, isSpace);
    }
  }

  /** A word followed by whitespace (or nothing) splits off as the first word. */
  lemma SplitWordThen(w: string, t: string, isSpace: char -> bool)
    requires IsWord(w, isSpace)
    requires |t| == 0 || isSpace(t[0])
    ensures Split(w + t, isSpace) == [w] + Split(t, isSpace)
  {
    RunOfWord(w, t, isSpace);
    assert (w + t)[..|w|] == w;
    assert (w + t)[|w|..] == t;
  }

  /** Whitespace before a text adds no word and changes none. */
  lemma {:induction false} SplitBlankThen(b: string, t: string, isSpace: char -> bool)
    requires forall i :: 0 <= i < |b| ==> isSpace(b[i])
    ensures Split(b + t, isSpace) == Split(t, isSpace)
    decreases |b|
  {
    if |b| == 0 {
      assert b + t == t;
    } else {
      assert (b + t)[0] == b[0];
      assert (b + t)[1..] == b[1..] + t;
      SplitBlankThen(b[1..], t, isSpace);
    }
  }

  /** The three equations of `SplitBlankThen`, `SplitWordThen` and the empty
      text determine the split: any function that satisfies them is `Split`.
      So every word is a maximal run of non-whitespace characters, wherever
      it stands in the text. */
  lemma {:induction false} SplitIsUnique(f: string -> seq<string>, s: string, isSpace: char -> bool)
    requires f("") == []
    requires forall c, t :: isSpace(c) ==> f([c] + t) == f(t)
    requires forall w, t :: IsWord(w, isSpace) && (|t| == 0 || isSpace(t[0])) ==> f(w + t) == [w] + f(t)
    ensures f(s) == Split(s, isSpace)
    decreases |s|
  {
    if |s| == 0 {
      assert s == "";
    } else if isSpace(s[0]) {
      assert s == [s[0]] + s[1..];
      SplitIsUnique(f, s[1..], isSpace);
    } else {
      var n := RunLength(s, isSpace);
      assert s == s[..n] + s[n..];
      assert IsWord(s[..n], isSpace);
      SplitIsUnique(f, s[n..], isSpace);
    }
  }

  /** The run that starts s is not lengthened by whitespace after s. */
  lemma {:induction false} RunBeforeSpace(s: string, t: string, isSpace: char -> bool)
    requires |t| > 0 && isSpace(t[0])
    ensures RunLength(s + t, isSpace) == RunLength(s, isSpace)
    decreases |s|
  {
    if |s| == 0 {
      assert s + t == t;
    } else if !isSpace(s[0]) {
      assert (s + t)[0] == s[0];
      assert (s + t)[1..] == s[1..] + t;
      RunBeforeSpace(s[1..], t, isSpace);
    } else {
      assert (s + t)[0] == s[0];
    }
  }

  /** Whitespace separates words: where the text has a whitespace
      character, no word spans it, so the words of s + t are the words of s
      followed by the words of t. With `SplitWordThen` this makes every
      word a maximal run of non-whitespace characters. */
  lemma {:induction false} SplitAtSpace(s: string, t: string, isSpace: char -> bool)
    requires |t| > 0 && isSpace(t[0])
    ensures Split(s + t, isSpace) == Split(s, isSpace) + Split(t, isSpace)
    decreases |s|
  {
    if |s| == 0 {
      assert s + t == t;
    } else if isSpace(s[0]) {
      assert (s + t)[0] == s[0];
      assert (s + t)[1..] == s[1..] + t;
      SplitAtSpace(s[1..], t, isSpace);
    } else {
      var n := RunLength(s, isSpace);
      RunBeforeSpace(s, t, isSpace);
      assert (s + t)[0] == s[0];
      assert (s + t)[..n] == s[..n];
      assert (s + t)[n..] == s[n..] + t;
      SplitAtSpace(s[n..], t, isSpace);
    }
  }

  /** Splitting the single-space join of words gives back the words,
      provided the space character is whitespace. */
  lemma {:induction false} SplitJoin(ws: seq<string>, isSpace: char -> bool)
    requires isSpace(' ')
    requires AllWords(ws, isSpace)
    ensures Split(Join(ws), isSpace) == ws
  {
    if |ws| == 1 {
      SplitWordThen(ws[0], "", isSpace);
      assert ws[0] + "" == ws[0];
    } else if |ws| > 1 {
      var rest := " " + Join(ws[1..]);
      assert Join(ws) == ws[0] + rest by {
        assert Join(ws) == ws[0] + " " + Join(ws[1..]);
      }
      SplitWordThen(ws[0], rest, isSpace);
      assert rest[1..] == Join(ws[1..]);
      SplitJoin(ws[1..], isSpace);
    }
  }

  /** Text with no words: empty, or whitespace only. */
  lemma {:induction false} NoWordsIffBlank(s: string, isSpace: char -> bool)
    ensures Split(s, isSpace) == [] <==> forall i :: 0 <= i < |s| ==> isSpace(s[i])
    decreases |s|
  {
    if |s| > 0 {
      if isSpace(s[0]) {
        NoWordsIffBlank(s[1..], isSpace);
        assert forall i :: 1 <= i < |s| ==> s[i] == s[1..][i - 1];
      }
    }
  }
}

=== FILE: wrappers.dfy ===
/** Option and Result: the None returns and the failures of the quiz pipeline. */
module Wrappers {

  /** A value or Python's None. */
  datatype Option<+T> = None | Some(value: T)

  /** A value or an error that ends the current call. */
  datatype Result<+R, +E> = Success(value: R) | Failure(error: E)
}
